=== FILE: README.md ===
# auth-tui in Dafny

A model of the core of `auth-tui`, a small terminal authenticator that keeps
credential URIs (`otpauth://totp/...`) in a text file, one per line, and shows
a live table of one-time codes. The model covers:

- **the descriptor parser** (`parse_totp`). A URL, already split into a path
  and ordered query pairs, becomes an account, an issuer and the arguments
  handed to the TOTP library. The steps are:
  - trim `/totp/` and `/` from the path;
  - split the label at its first `:`;
  - fold the query pairs, with defaults and fallbacks;
  - upper-case the secret and decode it as unpadded base32 (RFC 4648,
    section 6), including the rejection of non-zero trailing bits;
- **the secrets store**. It covers loading the credential lines of a file,
  saving them joined by newlines, the duplicate-free import merge with its
  reported count, and export;
- **the terminal view**. It covers the seconds left in the fixed 30-second
  window, the fixed-width table of each frame, and the redraw loop. That loop
  moves the cursor up by nothing before the first frame and by
  `2 + |stored lines|` before every later one.

Modules: `Options` (optional values), `Seqs` (filter-map with an index
characterisation), `Text` (the Rust string operations the program relies on:
`lines`, `join`, `trim_start_matches`, `find`, ASCII upper-casing, unsigned
integer parsing), `Base32`, `Descriptor`, `Store` and `Display`.

Calls into libraries outside the program are parameters of the model:
- URL parsing is `Display.Env.parseUrl`;
- label percent-decoding is `percentDecode`;
- code generation by the TOTP library is `Display.Env.generate`.

Files are their text, or `None` when unreadable. The clock is a time
parameter given to each frame.

The loaded lines do not always round-trip. Saving lines that are credential
URIs without newlines or final carriage returns and loading them again gives
the same lines (`Store.LoadOfSaved`). In the other direction, loading a text
and saving it again gives back exactly that text when it holds only
credential lines, no carriage return and no final newline (`Store.SaveOfLoad`).
A final newline is not written back, and a `\r` before a newline is dropped
when reading. So a load-then-save cycle does not reproduce such a file byte
for byte (`Store.SaveOfLoadDropsFinalNewline`).

The model keeps two behaviours of the program and proves them as facts:
- **TTL ignores each entry's step.** The remaining time shown is always
  counted against a 30-second window, so it agrees with an entry's own
  step exactly when that step is 30 (`Display.TtlIgnoresStep`).
- **Redraw misalignment.** The cursor moves up by the number of stored
  lines plus two, which is more than the frame printed whenever a stored
  line fails to parse (`Display.RedrawCoversPrevious`).

## Model

| member | source | states |
|---|---|---|
| Seqs.FilterMapSelects | src/main.rs:45-47 | filtering keeps exactly the positions where the test succeeds, each result is produced from its own position, and the original order is kept |
| Seqs.FilterMapKeepsAll | src/main.rs:136-137 | nothing is dropped exactly when every element passes |
| Seqs.FilterMapIdentity | src/main.rs:45-46 | when every element passes unchanged, filtering returns the input |
| Seqs.IndexOfSnoc | src/main.rs:174-178 | appending an element moves no first occurrence, and a new element first occurs at the appended position |
| Text.Lines | src/main.rs:44 | no line contains a newline; only the empty text has no lines |
| Text.LinesOfJoin | src/main.rs:44 | splitting the newline-joined text of non-empty lines without newlines or final carriage returns gives those lines back |
| Text.LinesSplit | src/main.rs:44 | a text cut at its first newline splits into the first line, less a final carriage return, followed by the lines of the rest |
| Text.JoinOfLines | src/main.rs:44-51 | joining the lines of a text without carriage returns and without a final newline gives the text back |
| Text.LinesOfFinalNewline | src/main.rs:44 | a final newline adds no line |
| Text.TrimmedLength | src/main.rs:59 | what is trimmed is at most the whole text, and what remains does not start with the pattern |
| Text.TrimStartMatches | src/main.rs:59 | the result is a suffix of the text, what it removes is a whole number of copies of the pattern, and the remainder does not start with the pattern; an empty pattern trims nothing |
| Text.TrimStartRemovesRepetitions | src/main.rs:59 | the removed prefix is a whole number of copies of the pattern |
| Text.TrimStartOneMatch | src/main.rs:59 | trimming a text that starts with the pattern equals trimming what follows that copy |
| Text.FindChar | src/main.rs:62 | absent exactly when the character does not occur; otherwise the index of its first occurrence |
| Text.FindCharAfter | src/main.rs:62 | in a text free of the character up to some point, the first occurrence is at that point |
| Text.AsciiUpper | src/main.rs:80 | same length; each character from 'a' to 'z' becomes the letter 32 code points lower, from 'A' to 'Z', and every other character is kept |
| Text.UpperOfLower | src/main.rs:94 | upper-casing the lower-case spelling of an upper-case text gives that text back |
| Text.Decimal | src/main.rs:139 | a non-empty run of digits without a leading zero |
| Text.DigitsValueOfDecimal | src/main.rs:139 | the decimal spelling of a number reads back as that number |
| Text.ParseUnsigned | src/main.rs:86-87 | parsing succeeds exactly on an optional '+' followed by at least one ASCII digit whose value is below the bound, and then gives that value |
| Text.ParseUnsignedOfDecimal | src/main.rs:86-87 | every value's decimal spelling, with or without '+', parses to it when it fits and fails when it does not |
| Text.LeadingZerosIgnored | src/main.rs:86-87 | leading zeros do not change the parsed value or whether it fits |
| Base32.FromBitsOfToBits | src/main.rs:93-95 | reading back a value written in a fixed number of bits gives the value |
| Base32.PackOfUnpack | src/main.rs:93-95 | regrouping a value sequence's bits into groups of the same width gives the values back |
| Base32.UnpackOfPack | src/main.rs:93-95 | splitting packed groups back into bits gives the original bits |
| Base32.SymbolValue | src/main.rs:93-95 | a character has a value exactly when it is in the alphabet "A"-"Z", "2"-"7"; the value is below 32 and is the character's position in the alphabet |
| Base32.Encode | src/main.rs:93-95 | the unpadded encoding has ceil(8n/5) symbols, all from the alphabet |
| Base32.Decode | src/main.rs:93-95 | decoding succeeds only on alphabet text whose length modulo 8 is 0, 2, 4, 5 or 7, and yields floor(5n/8) bytes |
| Base32.DecodeOfEncode | src/main.rs:93-95 | every byte sequence's encoding decodes back to it |
| Base32.EncodeOfDecode | src/main.rs:93-95 | any text that decodes is the encoding of what it decodes to, so non-canonical trailing bits are refused |
| Base32.DecodeIffEncode | src/main.rs:93-95 | a text decodes to some bytes exactly when it is their encoding |
| Descriptor.LabelText | src/main.rs:58-59 | the label is a suffix of the path; the part removed is a run of "/totp/" that no further "/totp/" follows, then a run of '/'; the label does not start with '/', and is shorter by at least the prefix when the path starts with "/totp/" |
| Descriptor.LabelTextOfPath | src/main.rs:57-59 | "/" + label and "/totp/" + label both give the label back |
| Descriptor.SplitLabel | src/main.rs:61-66 | no issuer exactly when there is no ':' (then the whole label is the account); otherwise the label is issuer, ':', account, and the issuer holds no ':' |
| Descriptor.SplitLabelOfJoined | src/main.rs:61-66 | splitting issuer + ":" + account gives them back when the issuer holds no ':', and a label without ':' is all account |
| Descriptor.AlgorithmNamed | src/main.rs:79-85 | SHA256 exactly for a case-insensitive "sha256", SHA512 exactly for a case-insensitive "sha512", SHA1 otherwise |
| Descriptor.DigitsFrom | src/main.rs:86 | the digit count is the value of the text when it is an optional '+' and digits below 2^32, and 6 otherwise |
| Descriptor.PeriodFrom | src/main.rs:87 | the step is the value of the text when it is an optional '+' and digits below 2^64, and 30 otherwise |
| Descriptor.NumberFieldsFallBack | src/main.rs:72-87 | any number written with any leading zeros is taken when it fits the field type, and an overflowing one gives 6 digits or a 30-second step; a value that is not an optional '+' and digits gives the defaults |
| Descriptor.NumberFieldRejects | src/main.rs:86-87 | "6x", "-1", " 8", "1.5" and "+" give 6 digits; "30s" and "-60" give a 30-second step |
| Descriptor.NumberFieldAccepts | src/main.rs:86 | "008" and "+8" give 8 digits |
| Descriptor.LastValue | src/main.rs:75-78 | a found value comes from a pair with that key after which no pair has the key; nothing is found exactly when no pair has the key |
| Descriptor.ApplyPairFields | src/main.rs:76-89 | one pair sets only the field its key names (case-sensitive); unknown keys change nothing |
| Descriptor.ReadQueryLastWins | src/main.rs:69-90 | for every field, the last pair with its key decides; with no such pair the starting value (label issuer, SHA1, 6, 30, no secret) stays |
| Descriptor.ParseDescriptor | src/main.rs:54-108 | a descriptor results exactly when the label decodes, a secret pair exists, and the upper-cased last secret decodes; then account and issuer come from label and query as above, the issuer defaults to "", the step count is 1, and the descriptor's issuer and account name equal the returned ones |
| Descriptor.LowerCaseSecretAccepted | src/main.rs:92-95 | a secret written in lower case is accepted and decodes to the bytes it encodes |
| Descriptor.SecretOnlyQuery | src/main.rs:75-88 | a query holding only a secret sets the secret and no other field |
| Descriptor.AccountOnlyDefaults | src/main.rs:54-108 | "/totp/" + a plain account with only a secret gives that account, issuer "", SHA1, 6 digits, 30 seconds |
| Store.LoadSecrets | src/main.rs:41-48 | every loaded entry starts with "otpauth://" and holds no newline; an unreadable file loads as no entries |
| Store.LoadKeepsUriLines | src/main.rs:41-48 | loading keeps exactly the lines that start with the scheme, unchanged, in file order |
| Store.LoadOfSaved | src/main.rs:41-52 | saving scheme lines without newlines or final carriage returns, then loading, gives the same lines |
| Store.SaveOfLoad | src/main.rs:41-52 | loading a text of credential lines without carriage returns or a final newline and saving the result writes the same text |
| Store.SaveOfLoadDropsFinalNewline | src/main.rs:41-52 | adding a final newline to a text of credential lines without carriage returns changes nothing that is loaded, and saving writes the text back without that newline |
| Store.NewLinesMembers | src/main.rs:174-178 | the appended lines are exactly the incoming lines not already stored, without repeats |
| Store.NewLinesInOrder | src/main.rs:174-178 | the appended lines follow the order of their first occurrence among the incoming lines |
| Store.Merge | src/main.rs:170-178 | the old store is an unchanged prefix; the result holds exactly the old and the incoming lines; appended lines are incoming and new, in the order of their first incoming occurrence; no duplicates are introduced |
| Store.MergeLoop | src/main.rs:170-184 | the in-place loop computes the merge, and the count reported is the whole incoming length, duplicates included |
| Store.MergeExample | src/main.rs:170-178 | [A, B] importing [B, C, D] becomes [A, B, C, D] |
| Store.Import | src/main.rs:169-185 | import reports the incoming count, keeps the old store as a prefix, appends exactly the new incoming lines in incoming order, introduces no duplicates, stores exactly the old and the incoming entries, and saves the merged store's text |
| Store.ImportReloads | src/main.rs:169-185 | the saved store loads back as the merged store |
| Store.Export | src/main.rs:186-193 | export writes the store's save text, the loaded lines joined by newlines, and reports their count; the written text loads back as the store when no stored line ends in a carriage return |
| Store.ExportReloads | src/main.rs:186-193 | the exported text loads back as the store |
| Display.ParseTotp | src/main.rs:54-95 | a stored line parses exactly when the URL parser accepts it, its label percent-decodes, a secret pair exists and the upper-cased last secret decodes as base32; a parsed descriptor's account name is its account |
| Display.SecondsRemaining | src/main.rs:118-124 | between 1 and 30, lands exactly on the next multiple of 30 with none in between, and is 30 exactly on a multiple of 30 |
| Display.SecondsRemainingTicks | src/main.rs:118-124 | the count drops by one each second and restarts at 30 after reaching 1 |
| Display.TtlIgnoresStep | src/main.rs:118-124 | for a positive step, the shown time agrees with the descriptor's own step at every second exactly when that step is 30 |
| Display.PadRight | src/main.rs:133 | a left-aligned field: the text, then spaces up to the width |
| Display.PadLeft | src/main.rs:139 | a right-aligned field: spaces up to the width, then the text |
| Display.RowAlignsWithHeader | src/main.rs:132-139 | when the fields fit, a row is as wide as the header with its column gaps in the same places, and the rule is three characters wider |
| Display.DrawRows | src/main.rs:136-141 | each row comes from a stored line that parses, in store order, and every line that parses has a row |
| Display.Start | src/main.rs:145-155 | the view stops at once exactly when the store is empty; otherwise the redraw count is two more than the number of stored lines |
| Display.Tick | src/main.rs:157-159 | a pass keeps the loaded lines and the redraw count and marks the first frame done |
| Display.RunFrames | src/main.rs:145-161 | the first frame moves up 0 lines, every later one 2 + the number of stored lines, and every frame prints 2 + the number of lines that parse |
| Display.RedrawCoversPrevious | src/main.rs:153-161 | each redraw moves up at least as many lines as the previous frame printed, and exactly as many only when every stored line parses |
| Display.RunExtends | src/main.rs:157-161 | one more second appends one frame and leaves the earlier frames unchanged |

## Left out

- Command-line parsing and the default store path (src/main.rs:9-39, 164-166): argument and environment plumbing.
- File reads and writes (src/main.rs:42, 50-52, 180-183, 188-191): a file is its text, or `None` when unreadable. Writes always succeed in the model, so the "Failed to save" and "Failed to export" exits and their exit code are not modelled. The printed messages are represented only by the counts they report.
- URL parsing (`Url::parse`, including how `query_pairs` percent-decodes keys and values) and `urlencoding::decode` (src/main.rs:55, 59): parameters of the model.
- Code generation (`generate_code`, `TOTP::generate`, HMAC and truncation; src/main.rs:97-116): a parameter of the model. What the TOTP library does with a step of 0 or an unusual digit count lies inside that library.
- `Text.AsciiUpper`: maps only the ASCII letters 'a' to 'z'. Rust's `to_uppercase` also maps other characters, for example 'é' to 'É', U+017F to 'S' and U+0131 to 'I', and can lengthen the text, as 'ß' becomes "SS". The model's result always keeps the text's length. Unicode case tables are not modelled.
- `Descriptor.ParseDescriptor`: non-ASCII case mapping is not modelled. The model upper-cases ASCII letters only, while Rust's `to_uppercase` also maps characters such as U+017F to 'S'. For texts with such characters the model may reject a secret the program would accept.
- `Descriptor.AlgorithmNamed`: the same ASCII-only case mapping applies. A value spelled with such non-ASCII characters selects SHA1 in the model, where the program might select SHA256 or SHA512.
- The clock, the one-second sleep, ANSI cursor escapes and stdout flushing (src/main.rs:111-122, 129, 142, 160). Each frame is given a single time. The program reads the clock once for the TTL and once more for each code, so within one frame they can straddle a second.
- `Display.RunFrames`: each row counts as one printed line. A row wider than the terminal, or an account whose percent-decoded label holds a newline, occupies more lines on screen. The model does not count that.
- `Display.Run`: only finitely many frames are modelled, one per given time. The program's loop never ends.

=== FILE: base32.dfy ===
/** Base32 without padding, as in section 6 of RFC 4648 with the padding
    characters omitted, and with the canonical-encoding rule of section 3.5
    enforced on decoding: the bits left over after the last whole byte must
    all be zero. Text is viewed as a stream of 5-bit symbols and data as a
    stream of 8-bit bytes; both are the same most-significant-first bit
    string. */
module Base32 {
  import opened Options
  import opened Seqs

  type Byte = x: nat | x < 256

  function Pow2(n: nat): (r: nat)
    ensures r > 0
  {
    if n == 0 then 1 else 2 * Pow2(n - 1)
  }

  lemma Pow2Widths()
    ensures Pow2(5) == 32 && Pow2(8) == 256
  {
    assert Pow2(2) == 4;
    assert Pow2(4) == 16;
  }

  /** The `width` low bits of `v`, most significant first. */
  function ToBits(v: nat, width: nat): (bits: seq<bool>)
    ensures |bits| == width
  {
    if width == 0 then [] else ToBits(v / 2, width - 1) + [v % 2 == 1]
  }

  /** The number a bit string spells, most significant first. */
  function FromBits(bits: seq<bool>): (v: nat)
    ensures v < Pow2(|bits|)
  {
    if |bits| == 0 then 0
    else 2 * FromBits(bits[..|bits| - 1]) + (if bits[|bits| - 1] then 1 else 0)
  }

  lemma {:induction false} FromBitsOfToBits(v: nat, width: nat)
    requires v < Pow2(width)
    ensures FromBits(ToBits(v, width)) == v
  {
    if width > 0 {
      FromBitsOfToBits(v / 2, width - 1);
      assert ToBits(v, width)[..width - 1] == ToBits(v / 2, width - 1);
    }
  }

  lemma {:induction false} ToBitsOfFromBits(bits: seq<bool>)
    ensures ToBits(FromBits(bits), |bits|) == bits
  {
    if |bits| > 0 {
      var init := bits[..|bits| - 1];
      ToBitsOfFromBits(init);
      assert bits == init + [bits[|bits| - 1]];
    }
  }

  /** `n` bits are a whole number of `width`-bit chunks. */
  predicate WholeChunks(n: nat, width: nat)
    decreases n
  {
    n == 0 || (0 < width <= n && WholeChunks(n - width, width))
  }

  lemma {:induction false} WholeChunksOfMultiple(width: nat, count: nat)
    requires width > 0
    ensures WholeChunks(width * count, width)
  {
    if count > 0 {
      assert width * count - width == width * (count - 1);
      WholeChunksOfMultiple(width, count - 1);
    }
  }

  /** The bit string of a sequence of `width`-bit values. */
  function Unpack(vals: seq<nat>, width: nat): (bits: seq<bool>)
    ensures WholeChunks(|bits|, width)
  {
    if |vals| == 0 then []
    else Unpack(vals[..|vals| - 1], width) + ToBits(vals[|vals| - 1], width)
  }

  /** A bit string cut into `width`-bit values. */
  function Pack(bits: seq<bool>, width: nat): (vals: seq<nat>)
    requires width > 0 && WholeChunks(|bits|, width)
    ensures forall i :: 0 <= i < |vals| ==> vals[i] < Pow2(width)
    decreases |bits|
  {
    if |bits| == 0 then []
    else Pack(bits[..|bits| - width], width) + [FromBits(bits[|bits| - width..])]
  }

  lemma {:induction false} UnpackLength(vals: seq<nat>, width: nat)
    ensures |Unpack(vals, width)| == width * |vals|
  {
    if |vals| > 0 {
      UnpackLength(vals[..|vals| - 1], width);
      assert width * |vals| == width * (|vals| - 1) + width;
    }
  }

  lemma {:induction false} PackLength(bits: seq<bool>, width: nat)
    requires width > 0 && WholeChunks(|bits|, width)
    ensures width * |Pack(bits, width)| == |bits|
    decreases |bits|
  {
    if |bits| > 0 {
      var n := |Pack(bits[..|bits| - width], width)|;
      PackLength(bits[..|bits| - width], width);
      assert width * (n + 1) == width * n + width;
    }
  }

  lemma AllFalseIsZeros(bits: seq<bool>)
    requires true !in bits
    ensures bits == Zeros(|bits|)
  {
    assert forall i :: 0 <= i < |bits| ==> bits[i] == Zeros(|bits|)[i];
  }

  lemma {:induction false} PackOfUnpack(vals: seq<nat>, width: nat)
    requires width > 0
    requires forall i :: 0 <= i < |vals| ==> vals[i] < Pow2(width)
    ensures Pack(Unpack(vals, width), width) == vals
  {
    if |vals| > 0 {
      var n := |vals| - 1;
      var head, tail := Unpack(vals[..n], width), ToBits(vals[n], width);
      var bits := Unpack(vals, width);
      assert bits == head + tail;
      assert bits[..|bits| - width] == head && bits[|bits| - width..] == tail;
      PackOfUnpack(vals[..n], width);
      FromBitsOfToBits(vals[n], width);
      assert Pack(bits, width) == vals[..n] + [vals[n]];
      LastSplit(vals);
    }
  }

  lemma {:induction false} UnpackOfPack(bits: seq<bool>, width: nat)
    requires width > 0 && WholeChunks(|bits|, width)
    ensures Unpack(Pack(bits, width), width) == bits
    decreases |bits|
  {
    if |bits| > 0 {
      var head, tail := bits[..|bits| - width], bits[|bits| - width..];
      var init := Pack(head, width);
      Snoc(init, FromBits(tail));
      assert Pack(bits, width) == init + [FromBits(tail)];
      UnpackOfPack(head, width);
      ToBitsOfFromBits(tail);
      assert Unpack(Pack(bits, width), width) == head + tail;
      SplitAt(bits, |bits| - width);
    }
  }

  /** The symbol for each 5-bit value: 'A'..'Z' for 0..25, '2'..'7' for 26..31. */
  function SymbolChar(v: nat): char
    requires v < 32
  {
    if v < 26 then ('A' as int + v) as char else ('2' as int + v - 26) as char
  }

  /** The RFC 4648 base32 alphabet, in value order. */
  const Alphabet: string := "ABCDEFGHIJKLMNOPQRSTUVWXYZ234567"

  lemma AlphabetIsStandard()
    ensures |Alphabet| == 32
    ensures forall v :: 0 <= v < 32 ==> Alphabet[v] == SymbolChar(v)
  {
  }

  /** The 5-bit value a character stands for; no value for characters outside
      the alphabet, lower-case letters and the padding character '=' included. */
  function SymbolValue(c: char): (r: Option<nat>)
    ensures r.Some? ==> r.value < 32 && SymbolChar(r.value) == c
    ensures r.None? <==> forall v :: 0 <= v < 32 ==> SymbolChar(v) != c
    ensures r.Some? ==> Alphabet[r.value] == c
    ensures r.None? ==> c !in Alphabet
  {
    AlphabetIsStandard();
    if 'A' <= c <= 'Z' then Some(c as int - 'A' as int)
    else if '2' <= c <= '7' then Some(c as int - '2' as int + 26)
    else None
  }

  lemma SymbolValueOfChar(v: nat)
    requires v < 32
    ensures SymbolValue(SymbolChar(v)) == Some(v)
  {
  }

  predicate InAlphabet(s: string) {
    forall i :: 0 <= i < |s| ==> SymbolValue(s[i]).Some?
  }

  function Symbols(s: string): (vals: seq<nat>)
    requires InAlphabet(s)
    ensures |vals| == |s|
    ensures forall i :: 0 <= i < |s| ==> vals[i] < 32 && SymbolChar(vals[i]) == s[i]
  {
    seq(|s|, i requires 0 <= i < |s| => SymbolValue(s[i]).value)
  }

  function Zeros(n: nat): (bits: seq<bool>)
    ensures |bits| == n && true !in bits
  {
    seq(n, _ => false)
  }

  /** The number of zero bits that complete the last symbol of `n` bits. */
  function FillBits(n: nat): nat {
    (5 - n % 5) % 5
  }

  /** The symbol values encoding `data`: its bits, zero-filled up to a whole
      symbol, cut into 5-bit values. */
  function EncodedValues(data: seq<Byte>): (vals: seq<nat>)
    ensures |vals| == (8 * |data| + 4) / 5
    ensures forall i :: 0 <= i < |vals| ==> vals[i] < 32
  {
    var bits := Unpack(data, 8);
    UnpackLength(data, 8);
    var fill := FillBits(|bits|);
    Pow2Widths();
    FillArithmetic(|data|);
    var padded := bits + Zeros(fill);
    WholeChunksOfMultiple(5, |padded| / 5);
    PackLength(padded, 5);
    Pack(padded, 5)
  }

  /** Encoding: one alphabet symbol per 5 bits, and no padding characters. */
  function Encode(data: seq<Byte>): (s: string)
    ensures |s| == (8 * |data| + 4) / 5
    ensures InAlphabet(s)
  {
    var vals := EncodedValues(data);
    seq(|vals|, i requires 0 <= i < |vals| => SymbolChar(vals[i]))
  }

  /** How many bits a text of `n` symbols leaves over after its last whole
      byte, by the length class of `n`. */
  lemma LeftoverBits(n: nat)
    ensures (5 * n) % 8 < 5 <==> n % 8 in {0, 2, 4, 5, 7}
    ensures 5 * n - (5 * n) % 8 == 8 * ((5 * n) / 8)
  {
    var q, r := n / 8, n % 8;
    assert n == 8 * q + r;
    assert 5 * n == 8 * (5 * q) + 5 * r;
  }

  /** The bytes a bit string holds: fails when the bits left over after the
      last whole byte could hold a whole symbol (no encoding leaves that many)
      or are not all zero. */
  function BytesOfBits(bits: seq<bool>): (r: Option<seq<Byte>>)
    ensures r.Some? ==> |bits| % 8 < 5 && 8 * |r.value| == |bits| - |bits| % 8
  {
    var extra := |bits| % 8;
    if extra >= 5 || true in bits[|bits| - extra..] then None
    else
      var whole := bits[..|bits| - extra];
      WholeChunksOfMultiple(8, |bits| / 8);
      PackLength(whole, 8);
      Pow2Widths();
      Some(Pack(whole, 8))
  }

  lemma BytesOfBitsSplit(bits: seq<bool>) returns (e: nat)
    requires BytesOfBits(bits).Some?
    ensures e < 5 && bits == Unpack(BytesOfBits(bits).value, 8) + Zeros(e)
  {
    var m := |bits| / 8;
    e := |bits| % 8;
    assert |bits| == 8 * m + e;
    var whole, tail := bits[..8 * m], bits[8 * m..];
    WholeChunksOfMultiple(8, m);
    UnpackOfPack(whole, 8);
    assert true !in tail;
    AllFalseIsZeros(tail);
    SplitAt(bits, 8 * m);
  }

  lemma BytesOfBitsOfFilled(data: seq<Byte>, fill: nat)
    requires fill < 5
    ensures BytesOfBits(Unpack(data, 8) + Zeros(fill)) == Some(data)
  {
    Pow2Widths();
    UnpackLength(data, 8);
    var bits := Unpack(data, 8) + Zeros(fill);
    assert |bits| == 8 * |data| + fill;
    assert |bits| % 8 == fill && |bits| / 8 == |data|;
    assert bits[|bits| - fill..] == Zeros(fill);
    assert bits[..|bits| - fill] == Unpack(data, 8);
    PackOfUnpack(data, 8);
  }

  /** Decoding: fails on a character outside the alphabet and wherever
      `BytesOfBits` fails on the characters' bits. */
  function Decode(s: string): (r: Option<seq<Byte>>)
    ensures r.Some? ==> InAlphabet(s)
    ensures r.Some? ==> |s| % 8 in {0, 2, 4, 5, 7} && |r.value| == 5 * |s| / 8
  {
    if !InAlphabet(s) then None
    else
      UnpackLength(Symbols(s), 5);
      LeftoverBits(|s|);
      BytesOfBits(Unpack(Symbols(s), 5))
  }

  /** Filling `k` bytes' bits up to a whole symbol adds fewer bits than a
      symbol holds, so decoding finds them as leftover bits and finds `k`
      whole bytes. */
  lemma FillArithmetic(k: nat)
    ensures FillBits(8 * k) < 5 && (8 * k + FillBits(8 * k)) % 5 == 0
    ensures (8 * k + FillBits(8 * k)) % 8 == FillBits(8 * k)
    ensures (8 * k + FillBits(8 * k)) / 8 == k
    ensures (8 * k + FillBits(8 * k)) / 5 == (8 * k + 4) / 5
  {
  }

  /** Filling the bytes' bits up to a whole symbol adds exactly the bits a
      well-formed text leaves over after its last whole byte. */
  lemma FillIsLeftover(n: nat, e: nat, m: nat)
    requires 5 * n == 8 * m + e && e < 5
    ensures FillBits(8 * m) == e && (8 * m + e) / 5 == n
  {
    if e > 0 {
      assert 8 * m == 5 * (n - 1) + (5 - e);
    }
  }

  lemma SymbolsOfEncoding(vals: seq<nat>, s: string)
    requires forall i :: 0 <= i < |vals| ==> vals[i] < 32
    requires |s| == |vals| && forall i :: 0 <= i < |s| ==> s[i] == SymbolChar(vals[i])
    ensures InAlphabet(s) && Symbols(s) == vals
  {
    forall i | 0 <= i < |s|
      ensures SymbolValue(s[i]) == Some(vals[i])
    {
      SymbolValueOfChar(vals[i]);
    }
  }

  /** Decoding reads back what encoding wrote. */
  lemma {:induction false} DecodeOfEncode(data: seq<Byte>)
    ensures Decode(Encode(data)) == Some(data)
  {
    Pow2Widths();
    var s := Encode(data);
    var bits := Unpack(data, 8);
    UnpackLength(data, 8);
    var fill := FillBits(|bits|);
    FillArithmetic(|data|);
    var padded := bits + Zeros(fill);
    WholeChunksOfMultiple(5, |padded| / 5);
    var vals := EncodedValues(data);
    assert vals == Pack(padded, 5);
    SymbolsOfEncoding(vals, s);
    UnpackOfPack(padded, 5);
    assert Unpack(Symbols(s), 5) == padded;
    BytesOfBitsOfFilled(data, fill);
  }

  /** Every text that decodes is the encoding of what it decodes to: no two
      texts decode to the same bytes. */
  lemma {:induction false} EncodeOfDecode(s: string)
    requires Decode(s).Some?
    ensures Encode(Decode(s).value) == s
  {
    Pow2Widths();
    var data := Decode(s).value;
    var vals := Symbols(s);
    UnpackLength(vals, 5);
    var e := BytesOfBitsSplit(Unpack(vals, 5));
    var bits := Unpack(data, 8);
    UnpackLength(data, 8);
    assert 5 * |s| == 8 * |data| + e;
    FillIsLeftover(|s|, e, |data|);
    PackOfUnpack(vals, 5);
    assert FillBits(|bits|) == e;
    assert EncodedValues(data) == Pack(bits + Zeros(e), 5) == vals;
    EncodeOfValues(data, s);
  }

  lemma EncodeOfValues(data: seq<Byte>, s: string)
    requires InAlphabet(s) && EncodedValues(data) == Symbols(s)
    ensures Encode(data) == s
  {
    var t := Encode(data);
    assert |t| == |s|;
    forall i | 0 <= i < |s|
      ensures t[i] == s[i]
    {
      assert t[i] == SymbolChar(Symbols(s)[i]);
    }
  }

  /** Decoding and encoding are inverse: a text decodes to `data` exactly
      when it is the encoding of `data`. */
  lemma DecodeIffEncode(s: string, data: seq<Byte>)
    ensures Decode(s) == Some(data) <==> s == Encode(data)
  {
    if Decode(s) == Some(data) {
      EncodeOfDecode(s);
    }
    if s == Encode(data) {
      DecodeOfEncode(data);
    }
  }
}

=== FILE: descriptor.dfy ===
/** The credential-URI parser (`parse_totp`): from a URL already split into
    its path and its ordered query pairs, build the code-generation
    descriptor, or nothing when the line is unusable. */
module Descriptor {
  import opened Options
  import opened Text
  import Base32

  datatype Algorithm = SHA1 | SHA256 | SHA512

  /** What the URL library hands the parser: the URL's path, and its query
      pairs in order with keys and values already decoded. */
  datatype Url = Url(path: string, query: seq<(string, string)>)

  /** The arguments `parse_totp` gives the TOTP library's constructor. */
  datatype Totp = Totp(
    algorithm: Algorithm,
    digits: nat,
    skew: nat,
    step: nat,
    secret: seq<Base32.Byte>,
    issuer: Option<string>,
    accountName: string)

  /** A parsed line: the account and issuer shown in the table, and the
      descriptor codes are generated from. */
  datatype Entry = Entry(account: string, issuer: string, totp: Totp)

  const DefaultDigits: nat := 6
  const DefaultPeriod: nat := 30
  /** The constructor is always given a skew of one step. */
  const Skew: nat := 1
  /** `digits` is read as a `u32`, `period` as a `u64`. */
  const U32Limit: nat := 0x1_0000_0000
  const U64Limit: nat := 0x1_0000_0000_0000_0000
  const TotpPrefix: string := "/totp/"

  /** The label text of a path: every leading "/totp/" removed, then every
      leading '/', before percent-decoding. */
  function LabelText(path: string): (r: string)
    ensures |r| <= |path| && r == path[|path| - |r|..]
    ensures var n := TrimmedLength(path, TotpPrefix);
      && n <= |path| - |r|
      && IsRepetition(path[..n], TotpPrefix) && !(TotpPrefix <= path[n..])
      && IsRepetition(path[n..|path| - |r|], "/")
    ensures |r| == 0 || r[0] != '/'
    ensures TotpPrefix <= path ==> |r| <= |path| - |TotpPrefix|
  {
    TrimStartRemovesRepetitions(path, TotpPrefix);
    TrimCharAfter(path, TrimmedLength(path, TotpPrefix), "/");
    TrimStartMatches(path[TrimmedLength(path, TotpPrefix)..], "/")
  }

  /** The usual shapes of a path give back the label behind them: a path
      that is '/' and then the label, unless the label itself starts with
      "totp/", and a path that is "/totp/" and then the label. */
  lemma LabelTextOfPath(name: string)
    requires |name| == 0 || name[0] != '/'
    requires !("totp/" <= name)
    ensures LabelText("/" + name) == name
    ensures LabelText(TotpPrefix + name) == name
  {
    LabelTextOfSlashed(name);
    assert !("/" <= name) && !(TotpPrefix <= name);
    TrimStartNoMatch(name, "/");
    TrimStartNoMatch(name, TotpPrefix);
    TrimStartOneMatch(TotpPrefix, name);
  }

  lemma SlashedPrefix(p: string, name: string)
    ensures "/" + p <= "/" + name <==> p <= name
  {
    if "/" + p <= "/" + name {
      assert name[..|p|] == ("/" + name)[1..|p| + 1] == ("/" + p)[1..];
    }
    if p <= name {
      assert ("/" + name)[..|p| + 1] == "/" + p;
    }
  }

  lemma LabelTextOfSlashed(name: string)
    requires |name| == 0 || name[0] != '/'
    requires !("totp/" <= name)
    ensures LabelText("/" + name) == name
  {
    var slashed := "/" + name;
    SlashedPrefix("totp/", name);
    assert TotpPrefix == "/" + "totp/";
    TrimStartNoMatch(slashed, TotpPrefix);
    assert !("/" <= name);
    TrimStartNoMatch(name, "/");
    TrimStartOneMatch("/", name);
  }

  datatype Label = Label(issuer: Option<string>, account: string)

  /** A label is split at its first ':' into issuer and account; without a
      ':' the whole label is the account. */
  function SplitLabel(name: string): (r: Label)
    ensures r.issuer.None? <==> ':' !in name
    ensures r.issuer.None? ==> r.account == name
    ensures r.issuer.Some? ==> name == r.issuer.value + ":" + r.account && ':' !in r.issuer.value
  {
    match FindChar(name, ':')
    case None => Label(None, name)
    case Some(i) =>
      assert name == name[..i] + ":" + name[i + 1..];
      Label(Some(name[..i]), name[i + 1..])
  }

  /** Splitting undoes writing a label as issuer, ':' and account, provided
      the issuer holds no ':' itself; a label without ':' is all account. */
  lemma SplitLabelOfJoined(issuer: string, account: string)
    ensures ':' !in issuer ==> SplitLabel(issuer + ":" + account) == Label(Some(issuer), account)
    ensures ':' !in account ==> SplitLabel(account) == Label(None, account)
  {
    if ':' !in issuer {
      FindCharAfter(issuer, ':', account);
      assert issuer + ":" + account == issuer + [':'] + account;
      var name := issuer + ":" + account;
      assert name[..|issuer|] == issuer && name[|issuer| + 1..] == account;
    }
  }

  /** The algorithm a query value names, compared case-insensitively. */
  function AlgorithmNamed(value: string): (a: Algorithm)
    ensures a == SHA256 <==>
      |value| == 6 && value[0] in "Ss" && value[1] in "Hh" && value[2] in "Aa" && value[3..] == "256"
    ensures a == SHA512 <==>
      |value| == 6 && value[0] in "Ss" && value[1] in "Hh" && value[2] in "Aa" && value[3..] == "512"
  {
    var v := AsciiUpper(value);
    if v == "SHA256" then SHA256
    else if v == "SHA512" then SHA512
    else SHA1
  }

  /** `value.parse().unwrap_or(6)` into a `u32`. */
  function DigitsFrom(value: string): (d: nat)
    ensures d == if IsUnsignedText(value) && DigitsValue(UnsignedDigits(value)) < U32Limit
                 then DigitsValue(UnsignedDigits(value)) else DefaultDigits
    ensures d < U32Limit
  {
    ParseUnsigned(value, U32Limit).GetOr(DefaultDigits)
  }

  /** `value.parse().unwrap_or(30)` into a `u64`. */
  function PeriodFrom(value: string): (p: nat)
    ensures p == if IsUnsignedText(value) && DigitsValue(UnsignedDigits(value)) < U64Limit
                 then DigitsValue(UnsignedDigits(value)) else DefaultPeriod
    ensures p < U64Limit
  {
    ParseUnsigned(value, U64Limit).GetOr(DefaultPeriod)
  }

  /** A number that fits the field's type is taken as written, leading zeros
      or not; one that overflows, and any value that is not an unsigned
      integer's text (a sign other than a leading '+', a space, a point, a
      letter, or nothing at all), falls back to the default. */
  lemma NumberFieldsFallBack(n: nat, zeros: string, value: string)
    requires forall i :: 0 <= i < |zeros| ==> zeros[i] == '0'
    ensures DigitsFrom(zeros + Decimal(n)) == if n < U32Limit then n else DefaultDigits
    ensures PeriodFrom(zeros + Decimal(n)) == if n < U64Limit then n else DefaultPeriod
    ensures !IsUnsignedText(value) ==> DigitsFrom(value) == DefaultDigits && PeriodFrom(value) == DefaultPeriod
  {
    LeadingZerosIgnored(zeros, n, U32Limit);
    LeadingZerosIgnored(zeros, n, U64Limit);
  }

  /** Values `str::parse` rejects fall back to the defaults. */
  lemma NumberFieldRejects()
    ensures DigitsFrom("6x") == 6 && DigitsFrom("-1") == 6 && DigitsFrom(" 8") == 6
    ensures DigitsFrom("1.5") == 6 && DigitsFrom("+") == 6
    ensures PeriodFrom("30s") == 30 && PeriodFrom("-60") == 30
  {
    assert !IsDigit("6x"[1]) && !IsDigit("-1"[0]) && !IsDigit(" 8"[0]) && !IsDigit("1.5"[1]);
    assert !IsDigit("30s"[2]) && !IsDigit("-60"[0]);
  }

  /** "008" and "+8" both read as 8. */
  lemma NumberFieldAccepts()
    ensures DigitsFrom("008") == 8 && DigitsFrom("+8") == 8
  {
    assert Decimal(8) == "8";
    NumberFieldsFallBack(8, "00", "");
    ParseUnsignedOfDecimal(8, U32Limit);
    assert "00" + Decimal(8) == "008" && "+" + Decimal(8) == "+8";
  }

  /** The parser's running state while it reads the query pairs. */
  datatype Params = Params(
    secret: Option<string>,
    issuer: Option<string>,
    algorithm: Algorithm,
    digits: nat,
    period: nat)

  /** One query pair's effect; keys are compared case-sensitively and unknown
      keys change nothing. */
  function ApplyPair(p: Params, key: string, value: string): Params {
    if key == "secret" then p.(secret := Some(value))
    else if key == "issuer" then p.(issuer := Some(value))
    else if key == "algorithm" then p.(algorithm := AlgorithmNamed(value))
    else if key == "digits" then p.(digits := DigitsFrom(value))
    else if key == "period" then p.(period := PeriodFrom(value))
    else p
  }

  /** Reads the query pairs in order, starting from `p`. */
  function ReadQuery(p: Params, query: seq<(string, string)>): Params
    decreases |query|
  {
    if |query| == 0 then p
    else
      var (key, value) := query[|query| - 1];
      ApplyPair(ReadQuery(p, query[..|query| - 1]), key, value)
  }

  /** The value of the last pair with key `key`, if there is one. */
  function LastValue(query: seq<(string, string)>, key: string): (r: Option<string>)
    ensures r.Some? ==>
      exists i :: 0 <= i < |query| && query[i] == (key, r.value) && (forall j :: i < j < |query| ==> query[j].0 != key)
    ensures r.None? <==> forall i :: 0 <= i < |query| ==> query[i].0 != key
    decreases |query|
  {
    if |query| == 0 then None
    else if query[|query| - 1].0 == key then Some(query[|query| - 1].1)
    else
      var r := LastValue(query[..|query| - 1], key);
      assert forall i :: 0 <= i < |query| - 1 ==> query[..|query| - 1][i] == query[i];
      r
  }

  /** One pair sets exactly the field its key names. */
  lemma ApplyPairFields(p: Params, key: string, value: string)
    ensures ApplyPair(p, key, value).secret == if key == "secret" then Some(value) else p.secret
    ensures ApplyPair(p, key, value).issuer == if key == "issuer" then Some(value) else p.issuer
    ensures ApplyPair(p, key, value).algorithm == if key == "algorithm" then AlgorithmNamed(value) else p.algorithm
    ensures ApplyPair(p, key, value).digits == if key == "digits" then DigitsFrom(value) else p.digits
    ensures ApplyPair(p, key, value).period == if key == "period" then PeriodFrom(value) else p.period
  {
  }

  /** For each field, the last pair with its key decides, whatever came
      before; without such a pair the field keeps its starting value. */
  lemma {:induction false} ReadQueryLastWins(p: Params, query: seq<(string, string)>)
    ensures ReadQuery(p, query).secret == LastValue(query, "secret").OrElse(p.secret)
    ensures ReadQuery(p, query).issuer == LastValue(query, "issuer").OrElse(p.issuer)
    ensures ReadQuery(p, query).algorithm ==
      (match LastValue(query, "algorithm") case Some(v) => AlgorithmNamed(v) case None => p.algorithm)
    ensures ReadQuery(p, query).digits ==
      (match LastValue(query, "digits") case Some(v) => DigitsFrom(v) case None => p.digits)
    ensures ReadQuery(p, query).period ==
      (match LastValue(query, "period") case Some(v) => PeriodFrom(v) case None => p.period)
    decreases |query|
  {
    if |query| > 0 {
      var init := query[..|query| - 1];
      var (key, value) := query[|query| - 1];
      ReadQueryLastWins(p, init);
      ApplyPairFields(ReadQuery(p, init), key, value);
    }
  }

  /** `parse_totp` after URL parsing; `percentDecode` is the label decoder,
      which may fail. */
  function ParseDescriptor(url: Url, percentDecode: string -> Option<string>): (r: Option<Entry>)
    ensures r.Some? <==>
      && percentDecode(LabelText(url.path)).Some?
      && LastValue(url.query, "secret").Some?
      && Base32.Decode(AsciiUpper(LastValue(url.query, "secret").value)).Some?
    ensures r.Some? ==>
      var parts := SplitLabel(percentDecode(LabelText(url.path)).value);
      var e := r.value;
      && e.account == parts.account
      && e.issuer == LastValue(url.query, "issuer").OrElse(parts.issuer).GetOr("")
      && Some(e.totp.secret) == Base32.Decode(AsciiUpper(LastValue(url.query, "secret").value))
      && e.totp.algorithm ==
           (match LastValue(url.query, "algorithm") case Some(v) => AlgorithmNamed(v) case None => SHA1)
      && e.totp.digits ==
           (match LastValue(url.query, "digits") case Some(v) => DigitsFrom(v) case None => 6)
      && e.totp.step ==
           (match LastValue(url.query, "period") case Some(v) => PeriodFrom(v) case None => 30)
      && e.totp.digits < U32Limit && e.totp.step < U64Limit
      && e.totp.skew == 1
      && e.totp.issuer == Some(e.issuer) && e.totp.accountName == e.account
  {
    match percentDecode(LabelText(url.path))
    case None => None
    case Some(text) =>
      var parts := SplitLabel(text);
      var start := Params(None, parts.issuer, SHA1, DefaultDigits, DefaultPeriod);
      var p := ReadQuery(start, url.query);
      ReadQueryLastWins(start, url.query);
      match p.secret
      case None => None
      case Some(secret) =>
        match Base32.Decode(AsciiUpper(secret))
        case None => None
        case Some(bytes) =>
          var issuer := p.issuer.GetOr("");
          Some(Entry(parts.account, issuer,
                     Totp(p.algorithm, p.digits, Skew, p.period, bytes, Some(issuer), parts.account)))
  }

  /** Encodings are written in upper case. */
  lemma EncodingIsUpperCase(data: seq<Base32.Byte>)
    ensures forall i :: 0 <= i < |Base32.Encode(data)| ==>
              AsciiUpperChar(Base32.Encode(data)[i]) == Base32.Encode(data)[i]
  {
    var s := Base32.Encode(data);
    forall i | 0 <= i < |s|
      ensures AsciiUpperChar(s[i]) == s[i]
    {
      assert Base32.SymbolValue(s[i]).Some?;
    }
  }

  /** A secret is accepted in lower case: the lower-case spelling of any
      encoding decodes to the encoded bytes. */
  lemma LowerCaseSecretAccepted(url: Url, percentDecode: string -> Option<string>, data: seq<Base32.Byte>)
    requires percentDecode(LabelText(url.path)).Some?
    requires LastValue(url.query, "secret") == Some(AsciiLower(Base32.Encode(data)))
    ensures ParseDescriptor(url, percentDecode).Some?
    ensures ParseDescriptor(url, percentDecode).value.totp.secret == data
  {
    var s := Base32.Encode(data);
    EncodingIsUpperCase(data);
    UpperOfLower(s);
    Base32.DecodeOfEncode(data);
    assert Base32.Decode(AsciiUpper(AsciiLower(s))) == Some(data);
  }

  /** A label decoder that leaves the text as it is. */
  function Verbatim(s: string): Option<string> {
    Some(s)
  }

  /** A path "/totp/" and a plain account name, with nothing in the query
      but a secret, gives that account, an empty issuer, and the default
      algorithm, digits and step (for instance "/totp/Account"). */
  lemma AccountOnlyDefaults(name: string, data: seq<Base32.Byte>)
    requires ':' !in name && (|name| == 0 || name[0] != '/') && !("totp/" <= name)
    ensures var r := ParseDescriptor(Url(TotpPrefix + name, [("secret", Base32.Encode(data))]), Verbatim);
      && r.Some?
      && r.value.account == name && r.value.issuer == ""
      && r.value.totp.secret == data
      && r.value.totp.algorithm == SHA1
      && r.value.totp.digits == DefaultDigits && r.value.totp.step == DefaultPeriod
  {
    var url := Url(TotpPrefix + name, [("secret", Base32.Encode(data))]);
    LabelTextOfPath(name);
    assert Verbatim(LabelText(url.path)) == Some(name);
    SplitLabelOfJoined("", name);
    assert SplitLabel(name) == Label(None, name);
    EncodingIsUpperCase(data);
    Base32.DecodeOfEncode(data);
    assert AsciiUpper(Base32.Encode(data)) == Base32.Encode(data);
    SecretOnlyQuery(Base32.Encode(data));
  }

  lemma SecretOnlyQuery(secret: string)
    ensures LastValue([("secret", secret)], "secret") == Some(secret)
    ensures LastValue([("secret", secret)], "issuer") == None
    ensures LastValue([("secret", secret)], "algorithm") == None
    ensures LastValue([("secret", secret)], "digits") == None
    ensures LastValue([("secret", secret)], "period") == None
  {
    assert "secret"[0] != "issuer"[0] && "secret"[0] != "period"[0];
    assert |"secret"| != |"algorithm"| && "secret"[0] != "digits"[0];
  }
}

=== FILE: display.dfy ===
/** The terminal view: the time left in the current 30-second window, the
    table drawn for each frame, and the redraw loop that moves the cursor
    back up before every frame but the first. The clock, the one-second
    sleep and the terminal itself are not modelled: each frame is given its
    time and is returned as data. */
module Display {
  import opened Options
  import opened Seqs
  import opened Text
  import Base32
  import Descriptor
  import Store

  /** The calls the view makes into libraries outside this model: splitting
      a URL into path and query pairs, percent-decoding a label, and
      computing a one-time code for a descriptor at a Unix time. */
  datatype Env = Env(
    parseUrl: string -> Option<Descriptor.Url>,
    percentDecode: string -> Option<string>,
    generate: (Descriptor.Totp, nat) -> string)

  /** `parse_totp` applied to a stored line. */
  function ParseTotp(env: Env, uri: string): (r: Option<Descriptor.Entry>)
    ensures r.Some? <==>
      && env.parseUrl(uri).Some?
      && (var url := env.parseUrl(uri).value;
          && env.percentDecode(Descriptor.LabelText(url.path)).Some?
          && Descriptor.LastValue(url.query, "secret").Some?
          && Base32.Decode(AsciiUpper(Descriptor.LastValue(url.query, "secret").value)).Some?)
    ensures r.Some? ==> r.value.totp.accountName == r.value.account
  {
    match env.parseUrl(uri)
    case None => None
    case Some(url) => Descriptor.ParseDescriptor(url, env.percentDecode)
  }

  function EntryParser(env: Env): string -> Option<Descriptor.Entry> {
    uri => ParseTotp(env, uri)
  }

  /** The window length the view counts down, whatever step each
      descriptor declares. */
  const Window: nat := 30

  predicate IsBoundary(t: nat) {
    t % Window == 0
  }

  /** `seconds_remaining`: the seconds from `t` to the next window boundary
      after it. */
  function SecondsRemaining(t: nat): (r: nat)
    ensures 1 <= r <= Window
    ensures IsBoundary(t + r)
    ensures forall s :: t < s < t + r ==> !IsBoundary(s)
    ensures r == Window <==> IsBoundary(t)
  {
    var r := Window - t % Window;
    forall s | t < s < t + r
      ensures !IsBoundary(s)
    {
      assert s == (t - t % Window) + (t % Window + (s - t));
      assert (t - t % Window) % Window == 0;
    }
    r
  }

  /** From one second to the next the count drops by one, and it restarts at
      the full window after reaching one. */
  lemma SecondsRemainingTicks(t: nat)
    ensures SecondsRemaining(t + 1) == if SecondsRemaining(t) == 1 then Window else SecondsRemaining(t) - 1
  {
  }

  /** The time left in a descriptor's own step. */
  function StepRemaining(t: nat, step: nat): (r: nat)
    requires step > 0
    ensures 1 <= r <= step
  {
    step - t % step
  }

  /** The count shown agrees with a descriptor's own step at every time
      exactly when that step is the default of thirty seconds: for any other
      step the two already differ at time 0. */
  lemma TtlIgnoresStep(step: nat)
    requires step > 0
    ensures (forall t: nat :: SecondsRemaining(t) == StepRemaining(t, step)) <==> step == Descriptor.DefaultPeriod
  {
    if step != Descriptor.DefaultPeriod {
      assert SecondsRemaining(0) != StepRemaining(0, step);
    }
  }

  function Repeat(c: char, n: nat): (r: string)
    ensures |r| == n && forall k :: 0 <= k < n ==> r[k] == c
  {
    if n == 0 then [] else Repeat(c, n - 1) + [c]
  }

  function Spaces(n: nat): (r: string)
    ensures |r| == n && forall k :: 0 <= k < n ==> r[k] == ' '
  {
    Repeat(' ', n)
  }

  /** A left-aligned field of at least `width` characters. */
  function PadRight(s: string, width: nat): (r: string)
    ensures |r| == if |s| < width then width else |s|
    ensures r[..|s|] == s
    ensures forall k :: |s| <= k < |r| ==> r[k] == ' '
  {
    if |s| < width then s + Spaces(width - |s|) else s
  }

  /** A right-aligned field of at least `width` characters. */
  function PadLeft(s: string, width: nat): (r: string)
    ensures |r| == if |s| < width then width else |s|
    ensures r[|r| - |s|..] == s
    ensures forall k :: 0 <= k < |r| - |s| ==> r[k] == ' '
  {
    if |s| < width then Spaces(width - |s|) + s else s
  }

  const AccountWidth: nat := 30
  const IssuerWidth: nat := 20
  const CodeWidth: nat := 8
  const HeaderTtlWidth: nat := 4
  const RowTtlWidth: nat := 3
  const RuleWidth: nat := 68

  const Header: string :=
    PadRight("USERNAME", AccountWidth) + " " + PadRight("ISSUER", IssuerWidth) + " "
    + PadLeft("CODE", CodeWidth) + " " + PadLeft("TTL", HeaderTtlWidth)

  const Rule: string := Repeat('-', RuleWidth)

  /** One table row: account, issuer, code, and the seconds left followed by
      `s`. */
  function Row(account: string, issuer: string, code: string, remaining: nat): string {
    PadRight(account, AccountWidth) + " " + PadRight(issuer, IssuerWidth) + " "
    + PadLeft(code, CodeWidth) + " " + PadLeft(Decimal(remaining), RowTtlWidth) + "s"
  }

  predicate Fits(account: string, issuer: string, code: string) {
    |account| <= AccountWidth && |issuer| <= IssuerWidth && |code| <= CodeWidth
  }

  /** When every field fits its column, a row has the header's width, its
      column separators sit where the header's do, and its last column ends
      at the header's last character. The rule is three characters wider. */
  lemma RowAlignsWithHeader(account: string, issuer: string, code: string, remaining: nat)
    requires Fits(account, issuer, code) && remaining <= Window
    ensures var row := Row(account, issuer, code, remaining);
      && |row| == |Header| == 65
      && row[30] == Header[30] == ' '
      && row[51] == Header[51] == ' '
      && row[60] == Header[60] == ' '
      && row[64] == 's'
      && |Rule| == |Header| + 3
  {
    var d := Decimal(remaining);
    TwoDigits(remaining);
    var e := PadLeft(d, RowTtlWidth);
    ColumnGaps(PadRight(account, AccountWidth), PadRight(issuer, IssuerWidth), PadLeft(code, CodeWidth), e + "s");
    assert Row(account, issuer, code, remaining)
        == PadRight(account, AccountWidth) + " " + PadRight(issuer, IssuerWidth) + " "
           + PadLeft(code, CodeWidth) + " " + (e + "s");
    ColumnGaps(PadRight("USERNAME", AccountWidth), PadRight("ISSUER", IssuerWidth),
               PadLeft("CODE", CodeWidth), PadLeft("TTL", HeaderTtlWidth));
  }

  /** The count of seconds left is written with at most two digits. */
  lemma TwoDigits(n: nat)
    requires n < 100
    ensures |Decimal(n)| <= 2
  {
    if n >= 10 {
      assert Decimal(n) == Decimal(n / 10) + [('0' as int + n % 10) as char];
    }
  }

  /** Four fields of widths 30, 20, 8 and any, joined by single spaces: the
      gaps sit at positions 30, 51 and 60. */
  lemma ColumnGaps(a: string, b: string, c: string, e: string)
    requires |a| == AccountWidth && |b| == IssuerWidth && |c| == CodeWidth
    ensures var line := a + " " + b + " " + c + " " + e;
      |line| == 61 + |e| && line[30] == ' ' && line[51] == ' ' && line[60] == ' '
      && (|e| > 0 ==> line[|line| - 1] == e[|e| - 1])
  {
  }

  /** One frame: how many lines the cursor moves up before drawing (zero
      means no escape is written), then the lines printed. */
  datatype Frame = Frame(cursorUp: nat, lines: seq<string>)

  function RowOf(env: Env, e: Descriptor.Entry, t: nat): string {
    Row(e.account, e.issuer, env.generate(e.totp, t), SecondsRemaining(t))
  }

  /** The rows for the parsed entries, all at the same time `t`. */
  function Rows(env: Env, entries: seq<Descriptor.Entry>, t: nat): (r: seq<string>)
    ensures |r| == |entries|
    ensures forall k :: 0 <= k < |r| ==> r[k] == RowOf(env, entries[k], t)
  {
    seq(|entries|, k requires 0 <= k < |entries| => RowOf(env, entries[k], t))
  }

  /** The number of stored lines that parse. */
  function ParsedCount(env: Env, secrets: seq<string>): nat {
    |FilterMap(secrets, EntryParser(env))|
  }

  /** `display` at time `t`: the header, the rule, and a row for each stored
      line that parses, in store order. */
  function Draw(env: Env, secrets: seq<string>, lineCount: nat, t: nat): (f: Frame)
    ensures f.cursorUp == lineCount
    ensures |f.lines| == 2 + ParsedCount(env, secrets)
    ensures f.lines[0] == Header && f.lines[1] == Rule
    ensures f.lines[2..] == Rows(env, FilterMap(secrets, EntryParser(env)), t)
  {
    Frame(lineCount, [Header, Rule] + Rows(env, FilterMap(secrets, EntryParser(env)), t))
  }

  /** Each row after the header and rule comes from a stored line that
      parses, in store order, and every line that parses gets a row. */
  lemma DrawRows(env: Env, secrets: seq<string>, lineCount: nat, t: nat)
    ensures var f, idx := Draw(env, secrets, lineCount, t), KeptIndices(secrets, EntryParser(env));
      && |f.lines| == 2 + ParsedCount(env, secrets)
      && |idx| == |f.lines| - 2
      && StrictlyIncreasing(idx)
      && (forall k :: 0 <= k < |idx| ==>
            idx[k] < |secrets|
            && ParseTotp(env, secrets[idx[k]]).Some?
            && f.lines[k + 2] == RowOf(env, ParseTotp(env, secrets[idx[k]]).value, t))
      && (forall i :: 0 <= i < |secrets| ==> (ParseTotp(env, secrets[i]).Some? <==> i in idx))
  {
    FilterMapSelects(secrets, EntryParser(env));
  }

  /** The redraw loop's state: the loaded lines, the cursor-up count fixed
      when the loop starts, and whether the next frame is the first. */
  datatype Tui = Tui(secrets: seq<string>, lineCount: nat, first: bool)

  predicate Valid(s: Tui) {
    |s.secrets| > 0 && s.lineCount == 2 + |s.secrets|
  }

  /** `run_tui` before its loop: an empty store ends the view at once. */
  function Start(content: Option<string>): (r: Option<Tui>)
    ensures r.None? <==> Store.LoadSecrets(content) == []
    ensures r.Some? ==> Valid(r.value) && r.value.first && r.value.secrets == Store.LoadSecrets(content)
  {
    var secrets := Store.LoadSecrets(content);
    if |secrets| == 0 then None else Some(Tui(secrets, 2 + |secrets|, true))
  }

  /** One pass of the loop: draw a frame, then mark the first frame done. */
  function Tick(env: Env, s: Tui, t: nat): (r: (Tui, Frame))
    ensures r.0.secrets == s.secrets && r.0.lineCount == s.lineCount && !r.0.first
    ensures Valid(s) ==> Valid(r.0)
  {
    (s.(first := false), Draw(env, s.secrets, if s.first then 0 else s.lineCount, t))
  }

  /** The frames drawn at the given successive times. */
  function Run(env: Env, s: Tui, times: seq<nat>): (frames: seq<Frame>)
    ensures |frames| == |times|
    decreases |times|
  {
    if |times| == 0 then []
    else
      var (next, f) := Tick(env, s, times[0]);
      [f] + Run(env, next, times[1..])
  }

  /** The first frame of a fresh loop moves the cursor up by nothing and
      every later one by two more than the number of stored lines; every
      frame prints two lines more than the number of lines that parse. */
  lemma {:induction false} RunFrames(env: Env, s: Tui, times: seq<nat>)
    requires Valid(s)
    ensures forall k :: 0 <= k < |times| ==>
      && Run(env, s, times)[k].cursorUp == (if k == 0 && s.first then 0 else 2 + |s.secrets|)
      && |Run(env, s, times)[k].lines| == 2 + ParsedCount(env, s.secrets)
  {
    RunCursor(env, s, times);
    RunLineCounts(env, s, times);
  }

  lemma {:induction false} RunCursor(env: Env, s: Tui, times: seq<nat>)
    requires Valid(s)
    ensures forall k :: 0 <= k < |times| ==>
      Run(env, s, times)[k].cursorUp == (if k == 0 && s.first then 0 else 2 + |s.secrets|)
    decreases |times|
  {
    if |times| > 0 {
      var (next, f) := Tick(env, s, times[0]);
      RunCursor(env, next, times[1..]);
      forall k | 1 <= k < |times|
        ensures Run(env, s, times)[k] == Run(env, next, times[1..])[k - 1]
      {
      }
    }
  }

  lemma {:induction false} RunLineCounts(env: Env, s: Tui, times: seq<nat>)
    ensures forall k :: 0 <= k < |times| ==>
      |Run(env, s, times)[k].lines| == 2 + ParsedCount(env, s.secrets)
    decreases |times|
  {
    if |times| > 0 {
      var (next, f) := Tick(env, s, times[0]);
      RunLineCounts(env, next, times[1..]);
      forall k | 1 <= k < |times|
        ensures Run(env, s, times)[k] == Run(env, next, times[1..])[k - 1]
      {
      }
    }
  }

  /** Each redraw moves the cursor up at least as many lines as the previous
      frame printed, and exactly as many only when every stored line parses;
      otherwise the table creeps upward over earlier terminal output. */
  lemma RedrawCoversPrevious(env: Env, s: Tui, times: seq<nat>, k: nat)
    requires Valid(s) && 0 < k < |times|
    ensures Run(env, s, times)[k].cursorUp >= |Run(env, s, times)[k - 1].lines|
    ensures Run(env, s, times)[k].cursorUp == |Run(env, s, times)[k - 1].lines|
        <==> forall i :: 0 <= i < |s.secrets| ==> ParseTotp(env, s.secrets[i]).Some?
  {
    RunFrames(env, s, times);
    FilterMapKeepsAll(s.secrets, EntryParser(env));
    assert forall i :: 0 <= i < |s.secrets| ==> EntryParser(env)(s.secrets[i]) == ParseTotp(env, s.secrets[i]);
  }

  /** Running one more second appends one frame and leaves the earlier
      frames as they were; after the first frame the cursor-up count is the
      one fixed at start. */
  lemma {:induction false} RunExtends(env: Env, s: Tui, times: seq<nat>, t: nat)
    ensures Run(env, s, times + [t])
         == Run(env, s, times) + [Draw(env, s.secrets, if |times| == 0 && s.first then 0 else s.lineCount, t)]
    decreases |times|
  {
    var ts := times + [t];
    var (next, f) := Tick(env, s, ts[0]);
    assert Run(env, s, ts) == [f] + Run(env, next, ts[1..]);
    if |times| > 0 {
      assert ts[0] == times[0] && ts[1..] == times[1..] + [t];
      RunExtends(env, next, times[1..], t);
      assert Run(env, s, times) == [f] + Run(env, next, times[1..]);
    } else {
      assert Run(env, next, ts[1..]) == [];
    }
  }
}

=== FILE: options.dfy ===
/** Optional values: the model's stand-in for Rust's `Option` and for the
    `.ok()?` early returns that turn an error into "no value". */
module Options {

  datatype Option<+T> = None | Some(value: T) {

    /** The wrapped value, or `default` when there is none (`unwrap_or`). */
    function GetOr(default: T): T {
      match this
      case Some(v) => v
      case None => default
    }

    /** This value if present, otherwise `other`. */
    function OrElse(other: Option<T>): Option<T> {
      if Some? then this else other
    }
  }
}

=== FILE: seqs.dfy ===
/** Generic sequence operations shared by the secrets store and the display:
    keeping the elements an optional-valued function accepts, and the facts
    that pin down exactly which elements are kept and in which order. */
module Seqs {
  import opened Options

  /** Applies `f` to every element and keeps the `Some` results, in order
      (an iterator `filter_map`). */
  function FilterMap<A, B>(xs: seq<A>, f: A -> Option<B>): (r: seq<B>)
    ensures |r| <= |xs|
    decreases |xs|
  {
    if |xs| == 0 then []
    else
      FilterMap(xs[..|xs| - 1], f)
      + (match f(xs[|xs| - 1]) case Some(y) => [y] case None => [])
  }

  /** The positions of `xs` at which `f` succeeds, in ascending order. */
  function KeptIndices<A, B>(xs: seq<A>, f: A -> Option<B>): (idx: seq<nat>)
    ensures forall k :: 0 <= k < |idx| ==> idx[k] < |xs|
    decreases |xs|
  {
    if |xs| == 0 then []
    else KeptIndices(xs[..|xs| - 1], f) + (if f(xs[|xs| - 1]).Some? then [|xs| - 1] else [])
  }

  ghost predicate StrictlyIncreasing(s: seq<nat>) {
    forall j, k :: 0 <= j < k < |s| ==> s[j] < s[k]
  }

  predicate NoDuplicates<T(==)>(s: seq<T>) {
    forall j, k :: 0 <= j < k < |s| ==> s[j] != s[k]
  }

  /** A non-empty sequence is its front followed by its last element. */
  lemma LastSplit<T>(s: seq<T>)
    requires |s| > 0
    ensures s == s[..|s| - 1] + [s[|s| - 1]]
  {
  }

  /** A sequence is its prefix up to `k` followed by the rest. */
  lemma SplitAt<T>(s: seq<T>, k: nat)
    requires k <= |s|
    ensures s == s[..k] + s[k..]
  {
  }

  /** The parts of a sequence with one element appended. */
  lemma Snoc<T>(a: seq<T>, x: T)
    ensures (a + [x])[..|a|] == a && (a + [x])[|a|] == x && |a + [x]| == |a| + 1
  {
  }

  /** The position of the first occurrence of `x` in `s`. */
  function IndexOf<T(==)>(s: seq<T>, x: T): (i: nat)
    requires x in s
    ensures i < |s| && s[i] == x && x !in s[..i]
    decreases |s|
  {
    if s[0] == x then 0
    else
      var j := IndexOf(s[1..], x);
      assert s[..j + 1] == [s[0]] + s[1..][..j];
      j + 1
  }

  /** A position holding `x` with no earlier `x` is the first occurrence. */
  lemma IndexOfUnique<T>(s: seq<T>, x: T, i: nat)
    requires i < |s| && s[i] == x && x !in s[..i]
    ensures IndexOf(s, x) == i
  {
  }

  /** Appending an element moves no first occurrence, and the first
      occurrence of a new element is the appended position. */
  lemma IndexOfSnoc<T>(s: seq<T>, x: T, y: T)
    requires y in s + [x]
    ensures y in s ==> IndexOf(s + [x], y) == IndexOf(s, y)
    ensures y !in s ==> IndexOf(s + [x], y) == |s|
  {
    var t := s + [x];
    if y in s {
      var i := IndexOf(s, y);
      assert t[..i] == s[..i];
      IndexOfUnique(t, y, i);
    } else {
      assert t[..|s|] == s;
      IndexOfUnique(t, y, |s|);
    }
  }

  /** `FilterMap` keeps exactly the positions where `f` succeeds, each result
      is `f` of its own position, and the original order is kept. */
  lemma {:induction false} FilterMapSelects<A, B>(xs: seq<A>, f: A -> Option<B>)
    ensures |KeptIndices(xs, f)| == |FilterMap(xs, f)|
    ensures StrictlyIncreasing(KeptIndices(xs, f))
    ensures forall k :: 0 <= k < |KeptIndices(xs, f)| ==>
              f(xs[KeptIndices(xs, f)[k]]) == Some(FilterMap(xs, f)[k])
    ensures forall i :: 0 <= i < |xs| ==> (f(xs[i]).Some? <==> i in KeptIndices(xs, f))
  {
    KeptIndicesCount(xs, f);
    KeptIndicesValues(xs, f);
    KeptIndicesMembers(xs, f);
  }

  lemma {:induction false} KeptIndicesCount<A, B>(xs: seq<A>, f: A -> Option<B>)
    ensures |KeptIndices(xs, f)| == |FilterMap(xs, f)|
    ensures StrictlyIncreasing(KeptIndices(xs, f))
    decreases |xs|
  {
    if |xs| > 0 {
      KeptIndicesCount(xs[..|xs| - 1], f);
    }
  }

  lemma {:induction false} KeptIndicesValues<A, B>(xs: seq<A>, f: A -> Option<B>)
    ensures |KeptIndices(xs, f)| == |FilterMap(xs, f)|
    ensures forall k :: 0 <= k < |KeptIndices(xs, f)| ==>
              f(xs[KeptIndices(xs, f)[k]]) == Some(FilterMap(xs, f)[k])
    decreases |xs|
  {
    KeptIndicesCount(xs, f);
    if |xs| > 0 {
      var init := xs[..|xs| - 1];
      KeptIndicesValues(init, f);
      var idx, r := KeptIndices(xs, f), FilterMap(xs, f);
      var idx0, r0 := KeptIndices(init, f), FilterMap(init, f);
      forall k | 0 <= k < |idx|
        ensures f(xs[idx[k]]) == Some(r[k])
      {
        if k < |idx0| {
          assert idx[k] == idx0[k] && r[k] == r0[k];
          assert xs[idx0[k]] == init[idx0[k]];
        }
      }
    }
  }

  lemma {:induction false} KeptIndicesMembers<A, B>(xs: seq<A>, f: A -> Option<B>)
    ensures forall i :: 0 <= i < |xs| ==> (f(xs[i]).Some? <==> i in KeptIndices(xs, f))
    decreases |xs|
  {
    if |xs| > 0 {
      var init := xs[..|xs| - 1];
      KeptIndicesMembers(init, f);
      var idx, idx0 := KeptIndices(xs, f), KeptIndices(init, f);
      forall i | 0 <= i < |xs|
        ensures f(xs[i]).Some? <==> i in idx
      {
        if i < |xs| - 1 {
          assert xs[i] == init[i];
          assert i in idx0 <==> i in idx;
        }
      }
    }
  }

  /** Nothing is dropped exactly when `f` succeeds everywhere. */
  lemma {:induction false} FilterMapKeepsAll<A, B>(xs: seq<A>, f: A -> Option<B>)
    ensures |FilterMap(xs, f)| == |xs| <==> forall i :: 0 <= i < |xs| ==> f(xs[i]).Some?
    decreases |xs|
  {
    if |xs| > 0 {
      var init := xs[..|xs| - 1];
      FilterMapKeepsAll(init, f);
      assert forall i :: 0 <= i < |init| ==> init[i] == xs[i];
    }
  }

  /** When `f` returns every element unchanged, `FilterMap` is the identity. */
  lemma {:induction false} FilterMapIdentity<A>(xs: seq<A>, f: A -> Option<A>)
    requires forall i :: 0 <= i < |xs| ==> f(xs[i]) == Some(xs[i])
    ensures FilterMap(xs, f) == xs
    decreases |xs|
  {
    if |xs| > 0 {
      var init := xs[..|xs| - 1];
      assert forall i :: 0 <= i < |init| ==> init[i] == xs[i];
      FilterMapIdentity(init, f);
    }
  }
}

=== FILE: store.dfy ===
/** The secrets store: the ordered credential-URI lines loaded from a text
    file, written back joined by newlines, and grown by importing the lines
    of another file. File reads and writes are not modelled: a file is its
    text, or `None` when it cannot be read. */
module Store {
  import opened Options
  import opened Seqs
  import opened Text

  const Scheme: string := "otpauth://"

  predicate IsUri(line: string) {
    Scheme <= line
  }

  function KeepUri(line: string): Option<string> {
    if IsUri(line) then Some(line) else None
  }

  /** `load_secrets`: the file's lines that start with the credential-URI
      scheme; an unreadable file reads as empty text. */
  function LoadSecrets(content: Option<string>): (r: seq<string>)
    ensures content.None? ==> r == []
    ensures forall k :: 0 <= k < |r| ==> IsUri(r[k]) && '\n' !in r[k]
  {
    var lines := Lines(content.GetOr(""));
    FilterMapSelects(lines, KeepUri);
    FilterMap(lines, KeepUri)
  }

  /** Loading keeps exactly the lines that start with the scheme, each one
      unchanged, in file order. */
  lemma LoadKeepsUriLines(text: string)
    ensures var lines, r := Lines(text), LoadSecrets(Some(text));
      var idx := KeptIndices(lines, KeepUri);
      && |idx| == |r|
      && StrictlyIncreasing(idx)
      && (forall k :: 0 <= k < |r| ==> idx[k] < |lines| && r[k] == lines[idx[k]])
      && (forall i :: 0 <= i < |lines| ==> (IsUri(lines[i]) <==> i in idx))
  {
    FilterMapSelects(Lines(text), KeepUri);
  }

  /** `save_secrets` and export: the text written for a sequence of lines. */
  function SaveText(lines: seq<string>): string {
    Join(lines)
  }

  predicate Storable(lines: seq<string>) {
    forall k :: 0 <= k < |lines| ==> IsUri(lines[k]) && '\n' !in lines[k] && !EndsWithCr(lines[k])
  }

  /** Loading what was saved gives the same lines back, when every line is a
      credential URI without a newline and without a final carriage return. */
  lemma LoadOfSaved(lines: seq<string>)
    requires Storable(lines)
    ensures LoadSecrets(Some(SaveText(lines))) == lines
  {
    LinesOfJoin(lines);
    FilterMapIdentity(lines, KeepUri);
  }

  /** Saving what was loaded gives the file text back, when every line of
      the text is a credential URI, the text holds no carriage return and it
      does not end in a newline. */
  lemma SaveOfLoad(text: string)
    requires '\r' !in text
    requires |text| == 0 || text[|text| - 1] != '\n'
    requires forall k :: 0 <= k < |Lines(text)| ==> IsUri(Lines(text)[k])
    ensures SaveText(LoadSecrets(Some(text))) == text
  {
    FilterMapIdentity(Lines(text), KeepUri);
    JoinOfLines(text);
  }

  /** A load-then-save cycle drops the file's final newline: the newline adds
      no line, and saving does not write one back. */
  lemma SaveOfLoadDropsFinalNewline(text: string)
    requires '\r' !in text
    requires |text| > 0 && text[|text| - 1] != '\n'
    requires forall k :: 0 <= k < |Lines(text)| ==> IsUri(Lines(text)[k])
    ensures LoadSecrets(Some(text + "\n")) == LoadSecrets(Some(text))
    ensures SaveText(LoadSecrets(Some(text + "\n"))) == text
  {
    LinesOfFinalNewline(text);
    SaveOfLoad(text);
  }

  /** The incoming lines an import appends: those that neither the store
      nor an earlier incoming line already holds, in incoming order. */
  function NewLines(existing: seq<string>, incoming: seq<string>): seq<string>
    decreases |incoming|
  {
    if |incoming| == 0 then []
    else
      var init, x := incoming[..|incoming| - 1], incoming[|incoming| - 1];
      NewLines(existing, init) + (if x in existing || x in init then [] else [x])
  }

  lemma {:induction false} NewLinesMembers(existing: seq<string>, incoming: seq<string>)
    ensures forall y :: y in NewLines(existing, incoming) <==> y in incoming && y !in existing
    ensures NoDuplicates(NewLines(existing, incoming))
    decreases |incoming|
  {
    if |incoming| > 0 {
      var init, x := incoming[..|incoming| - 1], incoming[|incoming| - 1];
      NewLinesMembers(existing, init);
      assert incoming == init + [x];
    }
  }

  /** The appended lines follow the order of their first occurrence in the
      incoming lines. */
  lemma {:induction false} NewLinesInOrder(existing: seq<string>, incoming: seq<string>)
    ensures var added := NewLines(existing, incoming);
      forall j, k :: 0 <= j < k < |added| ==>
        added[j] in incoming && added[k] in incoming &&
        IndexOf(incoming, added[j]) < IndexOf(incoming, added[k])
    decreases |incoming|
  {
    if |incoming| > 0 {
      var init, x := incoming[..|incoming| - 1], incoming[|incoming| - 1];
      assert incoming == init + [x];
      NewLinesInOrder(existing, init);
      NewLinesMembers(existing, init);
      var added0, added := NewLines(existing, init), NewLines(existing, incoming);
      assert added == added0 + (if x in existing || x in init then [] else [x]);
      forall j, k | 0 <= j < k < |added|
        ensures added[j] in incoming && added[k] in incoming
        ensures IndexOf(incoming, added[j]) < IndexOf(incoming, added[k])
      {
        var y := added0[j];
        assert added[j] == y && y in NewLines(existing, init) && y in init;
        IndexOfSnoc(init, x, y);
        assert IndexOf(incoming, y) == IndexOf(init, y) < |init|;
        if k < |added0| {
          var z := added0[k];
          assert added[k] == z && z in NewLines(existing, init) && z in init;
          IndexOfSnoc(init, x, z);
          assert IndexOf(init, y) < IndexOf(init, z);
        } else {
          assert added[k] == x && x !in init;
          IndexOfSnoc(init, x, x);
        }
      }
    }
  }

  /** The store after an import: the old lines first, unchanged, then the new
      ones. */
  function Merge(existing: seq<string>, incoming: seq<string>): (r: seq<string>)
    ensures |r| >= |existing| && r[..|existing|] == existing
    ensures forall y :: y in r <==> y in existing || y in incoming
    ensures forall k :: |existing| <= k < |r| ==> r[k] !in existing && r[k] in incoming
    ensures NoDuplicates(existing) ==> NoDuplicates(r)
    ensures r[|existing|..] == NewLines(existing, incoming)
    ensures forall j, k :: |existing| <= j < k < |r| ==>
              r[j] in incoming && r[k] in incoming &&
              IndexOf(incoming, r[j]) < IndexOf(incoming, r[k])
  {
    var added := NewLines(existing, incoming);
    NewLinesMembers(existing, incoming);
    NewLinesInOrder(existing, incoming);
    var r := existing + added;
    assert forall k :: |existing| <= k < |r| ==> r[k] == added[k - |existing|];
    r
  }

  /** The import loop of `main`: each incoming line is appended unless the
      growing store already holds it; the count reported is the number of
      incoming lines, duplicates included. */
  method MergeLoop(existing: seq<string>, incoming: seq<string>) returns (merged: seq<string>, count: nat)
    ensures merged == Merge(existing, incoming)
    ensures count == |incoming|
  {
    merged := existing;
    count := |incoming|;
    var i := 0;
    while i < |incoming|
      invariant 0 <= i <= |incoming|
      invariant merged == existing + NewLines(existing, incoming[..i])
    {
      var s := incoming[i];
      NewLinesMembers(existing, incoming[..i]);
      assert incoming[..i + 1] == incoming[..i] + [s];
      if s !in merged {
        merged := merged + [s];
      }
      i := i + 1;
    }
    assert incoming[..|incoming|] == incoming;
  }

  /** A store [A, B] importing [B, C, D] becomes [A, B, C, D]. */
  lemma MergeExample()
    ensures Merge(["otpauth://a", "otpauth://b"], ["otpauth://b", "otpauth://c", "otpauth://d"])
         == ["otpauth://a", "otpauth://b", "otpauth://c", "otpauth://d"]
  {
    var e, inc := ["otpauth://a", "otpauth://b"], ["otpauth://b", "otpauth://c", "otpauth://d"];
    assert inc[..2][..1] == ["otpauth://b"] && inc[..1][..0] == [];
    assert "otpauth://c" != "otpauth://a" && "otpauth://c" != "otpauth://b";
    assert "otpauth://d" != "otpauth://a" && "otpauth://d" != "otpauth://b"
      && "otpauth://d" != "otpauth://c";
    assert NewLines(e, inc[..1]) == [];
    assert NewLines(e, inc[..2]) == ["otpauth://c"];
    assert NewLines(e, inc) == ["otpauth://c", "otpauth://d"];
  }

  datatype ImportOutcome = ImportOutcome(store: seq<string>, saved: string, reported: nat)

  /** The `import` command: load both files, merge, save, report. */
  function Import(storeContent: Option<string>, incomingContent: Option<string>): (r: ImportOutcome)
    ensures r.reported == |LoadSecrets(incomingContent)|
    ensures |r.store| >= |LoadSecrets(storeContent)|
    ensures r.store[..|LoadSecrets(storeContent)|] == LoadSecrets(storeContent)
    ensures forall y :: y in r.store <==>
              y in LoadSecrets(storeContent) || y in LoadSecrets(incomingContent)
    ensures r.store[|LoadSecrets(storeContent)|..] == NewLines(LoadSecrets(storeContent), LoadSecrets(incomingContent))
    ensures NoDuplicates(LoadSecrets(storeContent)) ==> NoDuplicates(r.store)
    ensures r.saved == SaveText(r.store)
  {
    var existing, incoming := LoadSecrets(storeContent), LoadSecrets(incomingContent);
    var store := Merge(existing, incoming);
    ImportOutcome(store, SaveText(store), |incoming|)
  }

  /** The saved store loads back as the merged store, when no stored line
      ends in a carriage return. */
  lemma ImportReloads(storeContent: Option<string>, incomingContent: Option<string>)
    requires forall k :: 0 <= k < |Import(storeContent, incomingContent).store| ==>
               !EndsWithCr(Import(storeContent, incomingContent).store[k])
    ensures LoadSecrets(Some(Import(storeContent, incomingContent).saved))
         == Import(storeContent, incomingContent).store
  {
    var r := Import(storeContent, incomingContent);
    var existing, incoming := LoadSecrets(storeContent), LoadSecrets(incomingContent);
    forall k | 0 <= k < |r.store|
      ensures IsUri(r.store[k]) && '\n' !in r.store[k]
    {
      assert r.store[k] in existing || r.store[k] in incoming;
    }
    LoadOfSaved(r.store);
  }

  datatype ExportOutcome = ExportOutcome(written: string, reported: nat)

  /** The `export` command: the store's lines joined by newlines, exactly
      the text saving the store writes, and their number. The written text loads back as the store, when no stored line
      ends in a carriage return. */
  function Export(storeContent: Option<string>): (r: ExportOutcome)
    ensures r.written == SaveText(LoadSecrets(storeContent))
    ensures r.reported == |LoadSecrets(storeContent)|
    ensures (forall k :: 0 <= k < |LoadSecrets(storeContent)| ==> !EndsWithCr(LoadSecrets(storeContent)[k]))
              ==> LoadSecrets(Some(r.written)) == LoadSecrets(storeContent)
  {
    var lines := LoadSecrets(storeContent);
    var r := ExportOutcome(SaveText(lines), |lines|);
    if forall k :: 0 <= k < |lines| ==> !EndsWithCr(lines[k]) then
      LoadOfSaved(lines);
      r
    else r
  }

  /** The exported text loads back as the store, when no stored line ends in
      a carriage return. */
  lemma ExportReloads(storeContent: Option<string>)
    requires forall k :: 0 <= k < |LoadSecrets(storeContent)| ==> !EndsWithCr(LoadSecrets(storeContent)[k])
    ensures LoadSecrets(Some(Export(storeContent).written)) == LoadSecrets(storeContent)
  {
    LoadOfSaved(LoadSecrets(storeContent));
  }
}

=== FILE: text.dfy ===
/** String handling the program borrows from Rust's standard library, as it
    behaves on the inputs this program gives it: ASCII case mapping,
    `str::find` of one character, `trim_start_matches`, `str::lines` with
    its inverse `join("\n")`, and unsigned-integer parsing. */
module Text {
  import opened Options

  function AsciiUpperChar(c: char): char {
    if 'a' <= c <= 'z' then (c as int - 32) as char else c
  }

  function AsciiLowerChar(c: char): char {
    if 'A' <= c <= 'Z' then (c as int + 32) as char else c
  }

  /** `to_uppercase` restricted to ASCII letters: each of 'a'..'z' moves 32
      code points down to its capital, every other character is kept. */
  function AsciiUpper(s: string): (r: string)
    ensures |r| == |s|
    ensures forall i :: 0 <= i < |s| && 'a' <= s[i] <= 'z' ==>
              'A' <= r[i] <= 'Z' && r[i] as int == s[i] as int - 32
    ensures forall i :: 0 <= i < |s| && !('a' <= s[i] <= 'z') ==> r[i] == s[i]
  {
    seq(|s|, i requires 0 <= i < |s| => AsciiUpperChar(s[i]))
  }

  /** The ASCII lower-case spelling: each of 'A'..'Z' moves 32 code points up
      to its small letter, every other character is kept. */
  function AsciiLower(s: string): (r: string)
    ensures |r| == |s|
    ensures forall i :: 0 <= i < |s| && 'A' <= s[i] <= 'Z' ==>
              'a' <= r[i] <= 'z' && r[i] as int == s[i] as int + 32
    ensures forall i :: 0 <= i < |s| && !('A' <= s[i] <= 'Z') ==> r[i] == s[i]
  {
    seq(|s|, i requires 0 <= i < |s| => AsciiLowerChar(s[i]))
  }

  /** Upper-casing undoes lower-casing on text that is already upper case. */
  lemma UpperOfLower(s: string)
    requires forall i :: 0 <= i < |s| ==> AsciiUpperChar(s[i]) == s[i]
    ensures AsciiUpper(AsciiLower(s)) == s
  {
  }

  /** `str::find(c)`: the index of the first occurrence of `c`, if any. */
  function FindChar(s: string, c: char): (r: Option<nat>)
    ensures r.None? <==> c !in s
    ensures r.Some? ==> r.value < |s| && s[r.value] == c && c !in s[..r.value]
    decreases |s|
  {
    if |s| == 0 then None
    else if s[0] == c then Some(0)
    else match FindChar(s[1..], c)
      case None => None
      case Some(i) => Some(i + 1)
  }

  /** The first occurrence of `c` after a stretch free of `c` is right after that stretch. */
  lemma FindCharAfter(x: string, c: char, rest: string)
    requires c !in x
    ensures FindChar(x + [c] + rest, c) == Some(|x|)
  {
    var s := x + [c] + rest;
    assert s[|x|] == c && s[..|x|] == x;
  }

  /** `t` is zero or more back-to-back copies of `p`. */
  predicate IsRepetition(t: string, p: string)
    decreases |t|
  {
    |t| == 0 || (|p| > 0 && p <= t && IsRepetition(t[|p|..], p))
  }

  /** How many leading characters `trim_start_matches` removes: as many
      whole copies of `p` as start the text, one after the other. */
  function TrimmedLength(s: string, p: string): (n: nat)
    ensures n <= |s|
    ensures |p| > 0 ==> !(p <= s[n..])
    ensures |p| == 0 ==> n == 0
    ensures |p| > 0 && p <= s ==> n >= |p|
    decreases |s|
  {
    if |p| > 0 && p <= s then
      var m := TrimmedLength(s[|p|..], p);
      assert s[|p|..][m..] == s[|p| + m..];
      |p| + m
    else 0
  }

  /** `s.trim_start_matches(p)`: removes every leading repetition of `p`. */
  function TrimStartMatches(s: string, p: string): (r: string)
    ensures |r| <= |s| && r == s[|s| - |r|..]
    ensures IsRepetition(s[..|s| - |r|], p)
    ensures |p| > 0 ==> !(p <= r)
    ensures |p| == 0 ==> r == s
  {
    TrimStartRemovesRepetitions(s, p);
    s[TrimmedLength(s, p)..]
  }

  /** What trimming removes is a whole number of copies of `p`. */
  lemma {:induction false} TrimStartRemovesRepetitions(s: string, p: string)
    ensures IsRepetition(s[..TrimmedLength(s, p)], p)
    decreases |s|
  {
    if |p| > 0 && p <= s {
      var m := TrimmedLength(s[|p|..], p);
      TrimStartRemovesRepetitions(s[|p|..], p);
      assert s[..|p| + m][|p|..] == s[|p|..][..m];
    }
  }

  /** Trimming copies of the one-character text `c` from the part of `s`
      after `n` removes a run of `c`s and leaves a suffix of `s` that does
      not start with `c`. */
  lemma TrimCharAfter(s: string, n: nat, c: string)
    requires n <= |s| && |c| == 1
    ensures var r := TrimStartMatches(s[n..], c);
      && |r| <= |s| - n && r == s[|s| - |r|..]
      && IsRepetition(s[n..|s| - |r|], c)
      && (|r| == 0 || r[0] != c[0])
  {
    var r := TrimStartMatches(s[n..], c);
    SuffixOfSuffix(s, n, r);
    assert |r| > 0 ==> r[..1] == [r[0]];
  }

  /** A suffix of a suffix of `s` is a suffix of `s`, and what lies between is a slice of `s`. */
  lemma SuffixOfSuffix(s: string, n: nat, r: string)
    requires n <= |s| && |r| <= |s| - n && r == s[n..][|s| - n - |r|..]
    ensures r == s[|s| - |r|..] && s[n..][..|s| - n - |r|] == s[n..|s| - |r|]
  {
  }

  lemma TrimStartNoMatch(s: string, p: string)
    requires !(p <= s)
    ensures TrimStartMatches(s, p) == s
  {
  }

  lemma TrimStartOneMatch(p: string, s: string)
    requires |p| > 0
    ensures TrimStartMatches(p + s, p) == TrimStartMatches(s, p)
  {
    var n := TrimmedLength(s, p);
    assert (p + s)[|p|..] == s;
    assert TrimmedLength(p + s, p) == |p| + n;
    assert (p + s)[|p| + n..] == s[n..];
  }

  function StripTrailingCr(s: string): string {
    if |s| > 0 && s[|s| - 1] == '\r' then s[..|s| - 1] else s
  }

  predicate EndsWithCr(s: string) {
    |s| > 0 && s[|s| - 1] == '\r'
  }

  /** `str::lines`: split at each "\n", dropping one "\r" right before it; a
      final line ending adds no empty line, and the empty text has no lines. */
  function Lines(s: string): (r: seq<string>)
    ensures forall k :: 0 <= k < |r| ==> '\n' !in r[k]
    ensures s == [] <==> r == []
    decreases |s|
  {
    if |s| == 0 then []
    else match FindChar(s, '\n')
      case None => [s]
      case Some(i) =>
        assert '\n' !in StripTrailingCr(s[..i]);
        [StripTrailingCr(s[..i])] + Lines(s[i + 1..])
  }

  /** `join("\n")`. */
  function Join(ls: seq<string>): (r: string)
    ensures |ls| == 0 ==> r == []
    decreases |ls|
  {
    if |ls| == 0 then []
    else if |ls| == 1 then ls[0]
    else ls[0] + "\n" + Join(ls[1..])
  }

  /** Splitting joined lines gives the lines back, provided none is empty,
      none holds a newline and none ends in a carriage return. */
  lemma {:induction false} LinesOfJoin(ls: seq<string>)
    requires forall k :: 0 <= k < |ls| ==> |ls[k]| > 0 && '\n' !in ls[k] && !EndsWithCr(ls[k])
    ensures Lines(Join(ls)) == ls
    decreases |ls|
  {
    if |ls| == 1 {
      assert Join(ls) == ls[0];
    } else if |ls| > 1 {
      var rest := Join(ls[1..]);
      FindCharAfter(ls[0], '\n', rest);
      assert Join(ls) == ls[0] + ['\n'] + rest;
      assert (ls[0] + ['\n'] + rest)[..|ls[0]|] == ls[0];
      assert (ls[0] + ['\n'] + rest)[|ls[0]| + 1..] == rest;
      LinesOfJoin(ls[1..]);
    }
  }

  /** A text cut at its first newline: the first line, then the lines of
      the rest. */
  lemma LinesSplit(x: string, rest: string)
    requires '\n' !in x
    ensures Lines(x + "\n" + rest) == [StripTrailingCr(x)] + Lines(rest)
  {
    var t := x + "\n" + rest;
    FindCharAfter(x, '\n', rest);
    assert t == x + ['\n'] + rest;
    assert t[..|x|] == x && t[|x| + 1..] == rest;
  }

  /** Joining the lines of a text gives the text back, provided it holds no
      carriage return and does not end in a newline. */
  lemma {:induction false} JoinOfLines(s: string)
    requires '\r' !in s
    requires |s| == 0 || s[|s| - 1] != '\n'
    ensures Join(Lines(s)) == s
    decreases |s|
  {
    if |s| > 0 {
      match FindChar(s, '\n')
      case None =>
        assert Lines(s) == [s];
      case Some(i) =>
        var x, rest := s[..i], s[i + 1..];
        assert s == x + "\n" + rest;
        assert '\r' !in x && '\r' !in rest;
        assert StripTrailingCr(x) == x;
        assert |rest| > 0 && rest[|rest| - 1] == s[|s| - 1];
        LinesSplit(x, rest);
        JoinOfLines(rest);
        JoinCons(x, Lines(rest));
    }
  }

  /** Joining a line in front of at least one more puts a newline between. */
  lemma JoinCons(x: string, ls: seq<string>)
    requires |ls| > 0
    ensures Join([x] + ls) == x + "\n" + Join(ls)
  {
    assert ([x] + ls)[1..] == ls;
  }

  /** A final newline adds no line. */
  lemma {:induction false} LinesOfFinalNewline(s: string)
    requires '\r' !in s
    requires |s| > 0 && s[|s| - 1] != '\n'
    ensures Lines(s + "\n") == Lines(s)
    decreases |s|
  {
    match FindChar(s, '\n')
    case None =>
      LinesSplit(s, "");
      assert s + "\n" == s + "\n" + "";
    case Some(i) =>
      var x, rest := s[..i], s[i + 1..];
      assert s == x + "\n" + rest;
      assert s + "\n" == x + "\n" + (rest + "\n");
      assert '\r' !in rest && |rest| > 0 && rest[|rest| - 1] == s[|s| - 1];
      LinesSplit(x, rest);
      LinesSplit(x, rest + "\n");
      LinesOfFinalNewline(rest);
  }

  predicate IsDigit(c: char) {
    '0' <= c <= '9'
  }

  predicate AllDigits(s: string) {
    forall i :: 0 <= i < |s| ==> IsDigit(s[i])
  }

  /** The number a string of decimal digits spells, most significant first. */
  function DigitsValue(s: string): nat
    requires AllDigits(s)
    decreases |s|
  {
    if |s| == 0 then 0
    else 10 * DigitsValue(s[..|s| - 1]) + (s[|s| - 1] as int - '0' as int)
  }

  /** The canonical decimal spelling of `n`: no sign, no leading zero. */
  function Decimal(n: nat): (r: string)
    ensures |r| > 0 && AllDigits(r)
    ensures |r| > 1 ==> r[0] != '0'
    decreases n
  {
    var d := [('0' as int + n % 10) as char];
    if n < 10 then d else Decimal(n / 10) + d
  }

  lemma {:induction false} DigitsValueOfDecimal(n: nat)
    ensures DigitsValue(Decimal(n)) == n
    decreases n
  {
    var s := Decimal(n);
    if n >= 10 {
      DigitsValueOfDecimal(n / 10);
      assert s[..|s| - 1] == Decimal(n / 10);
    }
  }

  /** The text of an unsigned integer as `str::parse` reads it: an optional
      leading '+' and at least one ASCII digit, and nothing else. */
  predicate IsUnsignedText(s: string) {
    && |s| > 0 && s != "+"
    && forall i :: 0 <= i < |s| ==> IsDigit(s[i]) || (i == 0 && s[i] == '+')
  }

  /** The digits of an unsigned integer's text. */
  function UnsignedDigits(s: string): (d: string)
    requires IsUnsignedText(s)
    ensures |d| > 0 && AllDigits(d)
  {
    if s[0] == '+' then s[1..] else s
  }

  /** `str::parse` into an unsigned integer type whose values are below
      `bound`. */
  function ParseUnsigned(s: string, bound: nat): (r: Option<nat>)
    ensures r.Some? <==> IsUnsignedText(s) && DigitsValue(UnsignedDigits(s)) < bound
    ensures r.Some? ==> r.value < bound && r.value == DigitsValue(UnsignedDigits(s))
  {
    var body := if |s| > 0 && s[0] == '+' then s[1..] else s;
    assert IsUnsignedText(s) ==> body == UnsignedDigits(s);
    assert |body| > 0 && AllDigits(body) ==> IsUnsignedText(s) by {
      if |body| > 0 && AllDigits(body) && |s| > 0 && s[0] == '+' {
        assert forall i :: 1 <= i < |s| ==> s[i] == body[i - 1];
      }
    }
    if |body| == 0 || !AllDigits(body) then None
    else if DigitsValue(body) < bound then Some(DigitsValue(body))
    else None
  }

  /** Leading zeros do not change the value of a digit string. */
  lemma {:induction false} DigitsValueOfZeros(z: string, d: string)
    requires forall i :: 0 <= i < |z| ==> z[i] == '0'
    requires AllDigits(d)
    ensures AllDigits(z + d) && DigitsValue(z + d) == DigitsValue(d)
    decreases |d| + |z|
  {
    var s := z + d;
    if |d| > 0 {
      assert s[..|s| - 1] == z + d[..|d| - 1];
      DigitsValueOfZeros(z, d[..|d| - 1]);
    } else if |z| > 0 {
      assert s == z && z[..|z| - 1] + [] == z[..|z| - 1];
      DigitsValueOfZeros(z[..|z| - 1], []);
    }
  }

  /** Zeros written before a number, as in "008", leave its value as it is. */
  lemma LeadingZerosIgnored(z: string, n: nat, bound: nat)
    requires forall i :: 0 <= i < |z| ==> z[i] == '0'
    ensures ParseUnsigned(z + Decimal(n), bound) == (if n < bound then Some(n) else None)
  {
    DigitsValueOfZeros(z, Decimal(n));
    DigitsValueOfDecimal(n);
    assert IsUnsignedText(z + Decimal(n)) by {
      var s := z + Decimal(n);
      assert forall i :: 0 <= i < |s| ==> IsDigit(s[i]);
    }
  }

  /** Parsing reads back every value that fits, with or without a '+'. */
  lemma ParseUnsignedOfDecimal(n: nat, bound: nat)
    ensures ParseUnsigned(Decimal(n), bound) == (if n < bound then Some(n) else None)
    ensures ParseUnsigned("+" + Decimal(n), bound) == (if n < bound then Some(n) else None)
  {
    DigitsValueOfDecimal(n);
    assert ("+" + Decimal(n))[1..] == Decimal(n);
  }
}
